=== FILE: README.md ===
# S&P 500 momentum tracker — event lifecycle model

A Dafny model of the event lifecycle of `SP500MomentumTracker`, a daily batch job that
tracks large one-day moves of S&P 500 stocks.

Each run does four things:

1. **Detect.** It scans the ticker universe and flags every ticker whose last close moved,
   in absolute value, by at least the threshold (5% by default) from the close before.
2. **Insert.** It appends a fresh event for each mover to the tracking ledger. The event
   starts with count 0 and status `active`.
3. **Update.** It advances every active event that has a current price by one business day.
   It recomputes the event's cumulative change against the detection price and writes one
   snapshot per advanced event. An event becomes `completed` on its tenth update.
4. **Archive.** It moves completed events from the ledger to the historical store.

A separate pass derives feature columns from the snapshot log.

Modules:

- `Events` (events.dfy): the ledger row `Event`, the snapshot row `Snapshot`, percent
  change, two-decimal rounding, and the row invariant `WellFormed`.
- `Detector` (detector.dfy): the scan, as the specification function `Movers` and the loop
  `GetDailyMovers`.
- `Updater` (updater.dfy): insertion, the per-row daily update `Step`/`Advance`, the
  snapshots, and the in-place update loop `AdvanceInPlace` over an array (the table the
  source edits row by row).
- `Archiver` (archiver.dfy): the status filter `WithStatus` and the partition it makes.
- `Features` (features.dfy): the feature columns of the dataset.
- `MomentumTracker` (tracker.dfy): the class `Tracker` with the three stores (tracking
  ledger, historical store, snapshot log) as `seq` fields, its four operations, and the run
  invariant.

The price source is an input:

- Detection reads `histories: map<string, seq<Price>>`. A ticker missing from the map is
  one whose lookup raised.
- The daily update reads `prices: map<string, Price>`. A ticker missing from it has no price
  today and is skipped.
- The current day is a parameter `today`, a day number.

`momentum_continuation` divides by the initial change with no special case for zero. The
model follows the code rather than the intended sentinel value: `Features.Divide` gives the
quotient as the table library computes it, which is positive or negative infinity, or NaN
for zero over zero.

## Model

| member | source | states |
|---|---|---|
| `Events.PctChange` | sp500_tracker.py:89 | the change is positive/negative exactly when the price rose/fell, and `base + base*r/100` gives back the new price |
| `Events.Round2` | sp500_tracker.py:96 | the result is a whole number of hundredths within 0.005 of the input |
| `Events.Abs` | sp500_tracker.py:294 | the magnitude is non-negative and equals the value or its negation |
| `Detector.Scan` | sp500_tracker.py:83-99 | a ticker yields exactly one event iff it has two closes and its last move reaches the threshold in absolute value; that event is fresh (count 0, `active`, no observation), priced at the latest close, with the rounded move as its initial change |
| `Detector.Movers` | sp500_tracker.py:77-111 | reference definition of the scan, with no contract of its own; `Detector.MoversAppend`, `Detector.MoversSound`, `Detector.MoversComplete` and `Detector.SkippedTickerIsInert` state its properties |
| `Detector.GetDailyMovers` | sp500_tracker.py:77-111 | the scan loop returns exactly `Movers` of the ticker list; every event names a listed ticker and is detected from its closes |
| `Detector.MoversAppend` | sp500_tracker.py:77-109 | scanning `a + b` yields the movers of `a` followed by those of `b`: events follow ticker order and tickers do not affect each other |
| `Detector.MoversSound` | sp500_tracker.py:87-98 | every emitted event comes from a listed ticker that moved, is fresh, and carries the latest close and the rounded move; there are at most as many events as tickers |
| `Detector.MoversComplete` | sp500_tracker.py:91-99 | every listed ticker whose move reaches the threshold has an event among the movers |
| `Detector.SkippedTickerIsInert` | sp500_tracker.py:78-84 | a ticker whose lookup failed or returned fewer than two closes contributes nothing and leaves the other tickers' events as they are |
| `Detector.DetectsSixPercentGain` | sp500_tracker.py:87-98 | closes 100 then 106 with threshold 5 give one event priced 106 with a 6.0% initial change |
| `Detector.IgnoresFourPercentGain` | sp500_tracker.py:91 | closes 100 then 104 with threshold 5 give no event |
| `Updater.Insert` | sp500_tracker.py:122-123 | the new ledger is the old ledger followed by the movers: its length is the sum, the old rows are unchanged, the multiset of rows is the union (no de-duplication), and no movers leave it unchanged |
| `Updater.Advance` | sp500_tracker.py:174-185 | an update raises the count by one, completes the row iff the new count reaches 10, records the price and day, stores as cumulative change a whole number of hundredths within 0.005 of the exact percent change, and never writes ticker, detection date, detection price or initial change |
| `Updater.Step` | sp500_tracker.py:166-185 | reference definition of one row's daily update, with no contract of its own; `Updater.StepKeepsWellFormed` and `Updater.Advance` state its properties |
| `Updater.AdvanceAll` | sp500_tracker.py:166-185 | reference definition of the updated table, with no contract of its own; `Updater.AdvanceAllRowwise` and `Updater.AdvanceAllKeepsWellFormed` state its properties |
| `Updater.SnapshotsOf` | sp500_tracker.py:191-201 | reference definition of the day's `daily_updates` list, with no contract of its own; `Updater.SnapshotsAppend`, `Updater.SnapshotsCount`, `Updater.SnapshotsRecordUpdatedRows` and `Updater.SnapshotsWellFormed` state its properties |
| `Updater.AdvanceAllRowwise` | sp500_tracker.py:166-185 | the daily update advances exactly the active rows that have a price, giving every column of the advanced row including the rounded cumulative change; every other row is left exactly as it was |
| `Updater.SnapshotOf` | sp500_tracker.py:191-201 | a snapshot's tracking day, status, price, cumulative change and date equal those of the row after its update |
| `Updater.AdvanceInPlace` | sp500_tracker.py:166-201 | the in-place loop leaves the table equal to `AdvanceAll` of the old table and returns `SnapshotsOf` the old table |
| `Updater.SnapshotsAppend` | sp500_tracker.py:164-201 | snapshots of two stretches of the ledger come in ledger order |
| `Updater.SnapshotsCount` | sp500_tracker.py:166-201 | there is exactly one snapshot per advanced row |
| `Updater.SnapshotsRecordUpdatedRows` | sp500_tracker.py:191-201 | each snapshot is the observation of an advanced row and carries that row's new count and new status |
| `Updater.NoActiveNoChange` | sp500_tracker.py:153-157 | with no active row the update changes no row and records no snapshot |
| `Updater.StepKeepsWellFormed` | sp500_tracker.py:174-185 | the update keeps count <= 10 and "completed iff count is 10", raises the count by exactly one or zero, and never touches a completed row |
| `Updater.AdvanceAllKeepsWellFormed` | sp500_tracker.py:153-185 | a ledger of well-formed rows stays well-formed after the daily update |
| `Updater.SnapshotOfWellFormed` | sp500_tracker.py:184-200 | a well-formed active row's snapshot is on day 1 to 10 and is completed exactly on day 10 |
| `Updater.SnapshotsWellFormed` | sp500_tracker.py:191-201 | every snapshot of a well-formed ledger is on day 1 to 10 and completed exactly on day 10 |
| `Updater.WindowCloses` | sp500_tracker.py:162-185 | a fresh event that has a price on each run, each run with its own price map, has count min(runs, 10), is completed iff it has seen 10 runs, and, while its window is open, carries the last run's price and the rounded cumulative change at that price |
| `Updater.WindowStaysClosed` | sp500_tracker.py:153 | after its tenth update an event is left exactly as it is by every later run, since only active rows are updated |
| `Updater.TenDayWindowExample` | sp500_tracker.py:174-185 | detection at 100 and price 110 on every run: after 9 updates it is active on day 9 at +10.0%, and the 10th update completes it |
| `Archiver.WithStatus` | sp500_tracker.py:222 | the filter keeps only rows of the given status, all from the ledger, never more rows than the ledger |
| `Archiver.WithStatusAppend` | sp500_tracker.py:234 | the filter keeps ledger order |
| `Archiver.WithStatusExact` | sp500_tracker.py:222 | the filter keeps every row of the given status as often as it occurs, and no other row |
| `Archiver.ArchivePartitions` | sp500_tracker.py:222-234 | the completed rows sent to history and the active rows kept are together exactly the ledger's rows |
| `Archiver.WithStatusAllOrNone` | sp500_tracker.py:234 | filtering a ledger all of one status keeps all of it, and filtering for a status no row has keeps none |
| `Archiver.NothingCompletedNothingMoves` | sp500_tracker.py:224-225 | with no completed row the ledger already holds only active rows |
| `Archiver.ArchiveIdempotent` | sp500_tracker.py:222-235 | after archiving the ledger has no completed row and filtering it again changes nothing |
| `Features.InitialMoveDirection` | sp500_tracker.py:291 | `gain` iff the initial change is strictly positive; zero maps to `loss` |
| `Features.Divide` | sp500_tracker.py:297 | the quotient is finite iff the divisor is nonzero, then times the divisor it gives the dividend; over a zero divisor it is +inf for a positive dividend, -inf for a negative one, and NaN iff zero over zero |
| `Features.ContinuedDirection` | sp500_tracker.py:300-301 | true iff the product of the initial and cumulative changes is strictly positive, so false when either is zero |
| `Features.ContinuedAgreesWithDirection` | sp500_tracker.py:291-301 | a continued move has both changes nonzero and is a gain iff its cumulative change is positive |
| `Features.FeaturesOf` | sp500_tracker.py:290-301 | a snapshot's days since detection (the difference of its day numbers), direction, magnitude, momentum ratio (exactly `Divide` of cumulative by initial change, so +inf, -inf or NaN for a zero initial change) and continued flag, each related to the snapshot's changes |
| `Features.MlReadyDataset` | sp500_tracker.py:283-303 | one feature row per snapshot, in log order, each row holding the features `FeaturesOf` specifies for its snapshot |
| `MomentumTracker.DailyLedger` | sp500_tracker.py:245-259 | reference definition of the ledger after one run, with no contract of its own; `MomentumTracker.DailyRunSettles` states its property |
| `MomentumTracker.DailyRunSettles` | sp500_tracker.py:245-259 | after detect, insert, update and archive, every ledger row of a previously well-formed ledger is active with count <= 9 |
| `MomentumTracker.Tracker.constructor` | sp500_tracker.py:15-22 | a tracker over a data directory whose three stores hold the given rows |
| `MomentumTracker.Tracker.UpdateTrackingList` | sp500_tracker.py:113-130 | the ledger becomes `Insert` of the old ledger and the movers; history and snapshot log are unchanged; the store invariant is kept when the movers are well-formed |
| `MomentumTracker.Tracker.TrackExistingStocks` | sp500_tracker.py:146-214 | the ledger becomes `AdvanceAll` of the old one, the day's snapshots are appended to the log, history is unchanged, the store invariant is kept |
| `MomentumTracker.Tracker.ArchiveCompletedStocks` | sp500_tracker.py:216-237 | history gains the completed rows in order, the ledger keeps the active rows in order, the log is unchanged; with no completed row nothing changes |
| `MomentumTracker.Tracker.RunDailyUpdate` | sp500_tracker.py:239-270 | the run composes the four steps, giving the exact new value of each store; for a tracker whose stores were valid (`Valid()`), afterwards every ledger row is active with count <= 9 and the store invariant still holds; the history and the log are only appended to |

## Left out

- `get_sp500_tickers` (sp500_tracker.py:24-63): a web scrape, then a cache file, then a
  hard-coded list. The ticker list is an input. Its last fallback returns the undefined name
  `fallback_ickers`, so that branch raises. The call at line 72 is outside the per-ticker
  `try`, so that error ends the whole run and nothing is updated or archived that day.
  `MomentumTracker.Tracker.RunDailyUpdate` models only runs where the ticker list was obtained.
- Price fetching through the market-data library, and `get_current_prices`. Their results
  are the inputs `histories` and `prices`. A price lookup that raises, or returns no row, is
  a missing key.
- CSV reading and writing, file-existence checks and header handling. Each store is a `seq`
  field, and an absent file is an empty sequence. An interrupted run, which leaves partial
  writes, is not modelled.
- `print` output and the `time.sleep` pause after every 50 tickers.
- `datetime.now()`, which is the parameter `today`. Dates are day numbers, and
  `days_since_detection` is their difference; the conversion from calendar strings is not
  modelled.
- Floating point. Prices and percentages are reals, and there is no signed zero, infinity
  or NaN in the stored columns.
- `Events.Round2`: rounds to the nearest hundredth with ties upward. Python's `round` on
  binary doubles is not modelled.
- Zero or negative closes. `Price` is a positive real, so the unguarded divisions at lines
  89 and 175 are always defined. A zero close in the source gives an infinite or NaN change.
- Status values other than `active` and `completed`, for example from a hand-edited ledger
  file. They are not representable here. In the source such a row is never updated. It stays
  in the ledger while no row is completed, because the archiver then returns early
  (sp500_tracker.py:224-225). The first run that archives a completed row drops it from the
  ledger (line 234) without writing it to history.
- tickerDownload.py is not part of this model. It only fetches and writes ticker lists.

=== FILE: archiver.dfy ===
/**
 * The archiver (`archive_completed_stocks`): completed rows are appended to
 * the historical store and the ledger keeps only its active rows, both in
 * ledger order.
 */
module Archiver {
  import opened Events

  /** The rows of `rows` whose status is `st`, in order. */
  function WithStatus(rows: seq<Event>, st: Status): (r: seq<Event>)
    ensures |r| <= |rows|
    ensures forall e <- r :: e in rows && e.status == st
    decreases |rows|
  {
    if rows == [] then []
    else
      var last := rows[|rows| - 1];
      WithStatus(rows[..|rows| - 1], st) + if last.status == st then [last] else []
  }

  /** Filtering two stretches of a ledger keeps each stretch's rows, in order. */
  lemma {:induction false} WithStatusAppend(a: seq<Event>, b: seq<Event>, st: Status)
    ensures WithStatus(a + b, st) == WithStatus(a, st) + WithStatus(b, st)
    decreases |b|
  {
    if b == [] {
      assert a + b == a;
    } else {
      var b', last := b[..|b| - 1], b[|b| - 1];
      var tail := if last.status == st then [last] else [];
      assert (a + b)[..|a + b| - 1] == a + b';
      assert WithStatus(a + b, st) == WithStatus(a + b', st) + tail;
      WithStatusAppend(a, b', st);
      assert WithStatus(b, st) == WithStatus(b', st) + tail;
    }
  }

  /** The filter keeps every row with status `st`, as many times as it occurs, and no other row. */
  lemma {:induction false} WithStatusExact(rows: seq<Event>, st: Status)
    ensures forall e :: multiset(WithStatus(rows, st))[e] == if e.status == st then multiset(rows)[e] else 0
    decreases |rows|
  {
    if rows != [] {
      var init := rows[..|rows| - 1];
      WithStatusExact(init, st);
      assert rows == init + [rows[|rows| - 1]];
    }
  }

  /** Archiving splits the ledger: history gains the completed rows, the ledger keeps the active ones. */
  lemma ArchivePartitions(rows: seq<Event>)
    ensures multiset(WithStatus(rows, Completed)) + multiset(WithStatus(rows, Active)) == multiset(rows)
  {
    WithStatusExact(rows, Completed);
    WithStatusExact(rows, Active);
    assert forall e :: (multiset(WithStatus(rows, Completed)) + multiset(WithStatus(rows, Active)))[e] == multiset(rows)[e];
  }

  /** When every row has status `st`, the filter keeps the whole ledger; when none has, it keeps nothing. */
  lemma {:induction false} WithStatusAllOrNone(rows: seq<Event>, st: Status)
    ensures (forall e <- rows :: e.status == st) ==> WithStatus(rows, st) == rows
    ensures (forall e <- rows :: e.status != st) ==> WithStatus(rows, st) == []
    decreases |rows|
  {
    if rows != [] {
      var init := rows[..|rows| - 1];
      assert forall e <- init :: e in rows;
      WithStatusAllOrNone(init, st);
      assert rows == init + [rows[|rows| - 1]];
    }
  }

  /** With no completed row, the active rows are the whole ledger, so archiving changes nothing. */
  lemma NothingCompletedNothingMoves(rows: seq<Event>)
    requires WithStatus(rows, Completed) == []
    ensures WithStatus(rows, Active) == rows
  {
  }

  /** After one archiving the ledger holds no completed row, so a second archiving is a no-op. */
  lemma ArchiveIdempotent(rows: seq<Event>)
    ensures WithStatus(WithStatus(rows, Active), Completed) == []
    ensures WithStatus(WithStatus(rows, Active), Active) == WithStatus(rows, Active)
  {
    WithStatusAllOrNone(WithStatus(rows, Active), Completed);
    WithStatusAllOrNone(WithStatus(rows, Active), Active);
  }
}

=== FILE: detector.dfy ===
/**
 * The event detector (`get_daily_movers`): scan the universe ticker by
 * ticker, take the last two closes of each, and emit a fresh event for every
 * ticker whose day-over-day move reaches the threshold.
 *
 * The price source is an input: `histories` maps a ticker to its recent
 * closes, oldest first; a ticker missing from the map is one whose lookup
 * failed.
 */
module Detector {
  import opened Wrappers
  import opened Events

  /** The last close of a history. */
  function LatestClose(closes: seq<Price>): Price
    requires |closes| >= 1
  {
    closes[|closes| - 1]
  }

  /** The percent move from the second-to-last close to the last one. */
  function LastMove(closes: seq<Price>): real
    requires |closes| >= 2
  {
    PctChange(closes[|closes| - 2], closes[|closes| - 1])
  }

  /** A ticker whose lookup succeeded with at least two closes. */
  predicate HasTwoCloses(histories: map<string, seq<Price>>, ticker: string) {
    ticker in histories && |histories[ticker]| >= 2
  }

  /** A ticker whose last move, in absolute value, reaches the threshold. */
  predicate IsMover(histories: map<string, seq<Price>>, ticker: string, threshold: real) {
    HasTwoCloses(histories, ticker) && Abs(LastMove(histories[ticker])) >= threshold
  }

  /** A newly detected event: nothing tracked yet, active, no observation yet. */
  predicate IsFresh(e: Event, today: Date) {
    && e.dateDetected == today
    && e.daysTracked == 0
    && e.status == Active
    && e.currentPrice == None
    && e.totalChangePct == None
    && e.lastUpdated == None
  }

  /** The event a mover gives rise to, as the detector describes it. */
  predicate DetectedFrom(e: Event, histories: map<string, seq<Price>>, threshold: real, today: Date) {
    && IsMover(histories, e.ticker, threshold)
    && IsFresh(e, today)
    && e.detectionPrice == LatestClose(histories[e.ticker])
    && e.changePct == Round2(LastMove(histories[e.ticker]))
  }

  /** What scanning one ticker adds to the movers: one event or none. */
  function Scan(ticker: string, histories: map<string, seq<Price>>, threshold: real, today: Date): (found: seq<Event>)
    ensures |found| == 1 <==> IsMover(histories, ticker, threshold)
    ensures |found| <= 1
    ensures forall e <- found :: e.ticker == ticker && DetectedFrom(e, histories, threshold, today)
  {
    if ticker !in histories then []
    else
      var closes := histories[ticker];
      if |closes| < 2 then []
      else
        var change := LastMove(closes);
        if Abs(change) >= threshold then
          [Event(ticker, today, LatestClose(closes), Round2(change), 0, Active, None, None, None)]
        else []
  }

  /** The movers found by scanning `tickers` in order. */
  function Movers(tickers: seq<string>, histories: map<string, seq<Price>>, threshold: real, today: Date): seq<Event>
    decreases |tickers|
  {
    if tickers == [] then []
    else Movers(tickers[..|tickers| - 1], histories, threshold, today)
         + Scan(tickers[|tickers| - 1], histories, threshold, today)
  }

  /** The scan loop of `get_daily_movers`, one ticker at a time. */
  method GetDailyMovers(tickers: seq<string>, histories: map<string, seq<Price>>, threshold: real, today: Date)
    returns (movers: seq<Event>)
    ensures movers == Movers(tickers, histories, threshold, today)
    ensures forall e <- movers :: e.ticker in tickers && DetectedFrom(e, histories, threshold, today)
  {
    movers := [];
    var i := 0;
    while i < |tickers|
      invariant 0 <= i <= |tickers|
      invariant movers == Movers(tickers[..i], histories, threshold, today)
    {
      var ticker := tickers[i];
      assert tickers[..i + 1][..i] == tickers[..i];
      if ticker in histories {
        var closes := histories[ticker];
        if |closes| >= 2 {
          var todayClose := closes[|closes| - 1];
          var prevClose := closes[|closes| - 2];
          var change: real := (todayClose as real - prevClose as real) / prevClose * 100.0;
          if Abs(change) >= threshold {
            movers := movers + [Event(ticker, today, todayClose, Round2(change), 0, Active, None, None, None)];
          }
        }
      }
      i := i + 1;
    }
    assert tickers[..i] == tickers;
    MoversSound(tickers, histories, threshold, today);
  }

  /** Scanning two lists one after the other finds the movers of each, in order. */
  lemma {:induction false} MoversAppend(a: seq<string>, b: seq<string>, histories: map<string, seq<Price>>, threshold: real, today: Date)
    ensures Movers(a + b, histories, threshold, today)
         == Movers(a, histories, threshold, today) + Movers(b, histories, threshold, today)
    decreases |b|
  {
    if b == [] {
      assert a + b == a;
    } else {
      var b' := b[..|b| - 1];
      assert (a + b)[..|a + b| - 1] == a + b';
      MoversAppend(a, b', histories, threshold, today);
    }
  }

  /** Every emitted event comes from a listed ticker that moved, and is fresh. */
  lemma {:induction false} MoversSound(tickers: seq<string>, histories: map<string, seq<Price>>, threshold: real, today: Date)
    ensures |Movers(tickers, histories, threshold, today)| <= |tickers|
    ensures forall e <- Movers(tickers, histories, threshold, today) ::
              e.ticker in tickers && DetectedFrom(e, histories, threshold, today)
    decreases |tickers|
  {
    if tickers != [] {
      var init := tickers[..|tickers| - 1];
      MoversSound(init, histories, threshold, today);
      assert forall t <- init :: t in tickers;
    }
  }

  /** Every listed ticker that moved has an event among the movers. */
  lemma {:induction false} MoversComplete(tickers: seq<string>, histories: map<string, seq<Price>>, threshold: real, today: Date, ticker: string)
    requires ticker in tickers && IsMover(histories, ticker, threshold)
    ensures exists e <- Movers(tickers, histories, threshold, today) :: e.ticker == ticker
    decreases |tickers|
  {
    var last := tickers[|tickers| - 1];
    var init := tickers[..|tickers| - 1];
    if last == ticker {
      var found := Scan(last, histories, threshold, today);
      assert found[0] in Movers(tickers, histories, threshold, today);
    } else {
      assert tickers == init + [last];
      MoversComplete(init, histories, threshold, today, ticker);
      var e :| e in Movers(init, histories, threshold, today) && e.ticker == ticker;
      assert e in Movers(tickers, histories, threshold, today);
    }
  }

  /** A ticker whose lookup failed or returned fewer than two closes changes nothing. */
  lemma SkippedTickerIsInert(before: seq<string>, ticker: string, after: seq<string>,
                             histories: map<string, seq<Price>>, threshold: real, today: Date)
    requires !HasTwoCloses(histories, ticker)
    ensures Movers(before + [ticker] + after, histories, threshold, today)
         == Movers(before + after, histories, threshold, today)
  {
    MoversAppend(before + [ticker], after, histories, threshold, today);
    MoversAppend(before, [ticker], histories, threshold, today);
    MoversAppend(before, after, histories, threshold, today);
    assert Movers([ticker], histories, threshold, today) == Movers([], histories, threshold, today) + [];
  }

  /** With threshold 5, closes 100 then 106 give an event at 106 with a 6% move. */
  lemma DetectsSixPercentGain(today: Date)
    ensures Movers(["X"], map["X" := [100.0, 106.0]], DefaultThreshold, today)
         == [Event("X", today, 106.0, 6.0, 0, Active, None, None, None)]
  {
    assert LastMove([100.0, 106.0]) == 6.0;
    assert Round2(6.0) == 6.0;
  }

  /** With threshold 5, closes 100 then 104 give no event. */
  lemma IgnoresFourPercentGain(today: Date)
    ensures Movers(["X"], map["X" := [100.0, 104.0]], DefaultThreshold, today) == []
  {
    assert LastMove([100.0, 104.0]) == 4.0;
  }
}

=== FILE: events.dfy ===
/**
 * The records of the momentum tracker: a tracked event (one row of the
 * tracking ledger or of the historical store) and a daily snapshot (one row
 * of the snapshot log), with the arithmetic they share.
 */
module Events {
  import opened Wrappers

  /** A calendar day, as a day number. */
  type Date = int

  /** A close price. Market closes are strictly positive. */
  type Price = r: real | r > 0.0 witness 1.0

  /** Number of daily updates an event receives before it is completed. */
  const WindowLength: nat := 10

  /** Percent move that makes a ticker a mover when no threshold is given. */
  const DefaultThreshold: real := 5.0

  /** The `status` column: an event is `active` until its window closes. */
  datatype Status = Active | Completed

  /** One row of the tracking ledger (and, once archived, of the historical store). */
  datatype Event = Event(
    ticker: string,
    dateDetected: Date,
    detectionPrice: Price,
    changePct: real,
    daysTracked: nat,
    status: Status,
    currentPrice: Option<Price>,
    totalChangePct: Option<real>,
    lastUpdated: Option<Date>)

  /** One row of the snapshot log: an event as observed on one daily update. */
  datatype Snapshot = Snapshot(
    ticker: string,
    dateDetected: Date,
    trackingDay: nat,
    currentDate: Date,
    detectionPrice: Price,
    currentPrice: Price,
    initialChangePct: real,
    cumulativeChangePct: real,
    status: Status)

  function Abs(x: real): (r: real)
    ensures r >= 0.0 && (r == x || r == -x)
  {
    if x < 0.0 then -x else x
  }

  /** Percent change from `base` to `now`; `base` is positive, so it is always defined. */
  function PctChange(base: Price, now: Price): (r: real)
    ensures r > 0.0 <==> now > base
    ensures r < 0.0 <==> now < base
    ensures now == base + base * r / 100.0
  {
    (now - base) / base * 100.0
  }

  /** `x` rounded to two decimals: the nearest multiple of 0.01, ties upward. */
  function Round2(x: real): (r: real)
    ensures x - 0.005 < r <= x + 0.005
    ensures (r * 100.0).Floor as real == r * 100.0
  {
    ((x * 100.0 + 0.5).Floor as real) / 100.0
  }

  /**
   * The invariant every ledger row keeps: the count never passes the window,
   * and the row is completed exactly when the count has reached it.
   */
  predicate WellFormed(e: Event) {
    e.daysTracked <= WindowLength && (e.status == Completed <==> e.daysTracked == WindowLength)
  }

  /** A snapshot numbered within the window, completed exactly on its last day. */
  predicate IsWithinWindow(s: Snapshot) {
    1 <= s.trackingDay <= WindowLength && (s.status == Completed <==> s.trackingDay == WindowLength)
  }

  /** A row as it stands in the ledger after a full daily run: active, window still open. */
  predicate Settled(e: Event) {
    e.status == Active && e.daysTracked < WindowLength
  }
}

=== FILE: features.dfy ===
/**
 * The feature columns `get_ml_ready_dataset` derives from the snapshot log,
 * row by row.
 */
module Features {
  import opened Events

  datatype Direction = Gain | Loss

  /**
   * The quotient of two floating-point numbers as the table library computes
   * it: finite when the divisor is not zero, otherwise an infinity of the
   * dividend's sign, or NaN for zero over zero.
   */
  datatype Quotient = Finite(value: real) | PosInfinity | NegInfinity | NaN

  /** One row of the dataset: a snapshot with its derived features. */
  datatype FeatureRow = FeatureRow(
    snapshot: Snapshot,
    daysSinceDetection: int,
    initialMoveDirection: Direction,
    initialMoveMagnitude: real,
    momentumContinuation: Quotient,
    continuedDirection: bool)

  /** `gain` for a strictly positive initial move; zero counts as a loss. */
  function InitialMoveDirection(initial: real): (d: Direction)
    ensures d == Gain <==> initial > 0.0
    ensures d == Loss <==> initial <= 0.0
  {
    if initial > 0.0 then Gain else Loss
  }

  /** Floating-point division, undefined divisions included. */
  function Divide(n: real, d: real): (q: Quotient)
    ensures q.Finite? <==> d != 0.0
    ensures q.Finite? ==> q.value * d == n
    ensures q == NaN <==> d == 0.0 && n == 0.0
    ensures d == 0.0 ==> (q == PosInfinity <==> n > 0.0) && (q == NegInfinity <==> n < 0.0)
  {
    if d != 0.0 then Finite(n / d)
    else if n > 0.0 then PosInfinity
    else if n < 0.0 then NegInfinity
    else NaN
  }

  /** Whether the move kept its direction: both changes strictly positive or both strictly negative. */
  function ContinuedDirection(initial: real, cumulative: real): (b: bool)
    ensures b <==> initial * cumulative > 0.0
  {
    (initial > 0.0 && cumulative > 0.0) || (initial < 0.0 && cumulative < 0.0)
  }

  /** A move that kept its direction is a gain exactly when its cumulative change is positive. */
  lemma ContinuedAgreesWithDirection(initial: real, cumulative: real)
    requires ContinuedDirection(initial, cumulative)
    ensures initial != 0.0 && cumulative != 0.0
    ensures InitialMoveDirection(initial) == Gain <==> cumulative > 0.0
  {
  }

  /** The features of one snapshot. */
  function FeaturesOf(s: Snapshot): (f: FeatureRow)
    ensures f.snapshot == s
    ensures f.daysSinceDetection == s.currentDate - s.dateDetected
    ensures f.initialMoveDirection == Gain <==> s.initialChangePct > 0.0
    ensures f.initialMoveMagnitude >= 0.0
    ensures f.initialMoveMagnitude == s.initialChangePct || f.initialMoveMagnitude == -s.initialChangePct
    ensures f.momentumContinuation == Divide(s.cumulativeChangePct, s.initialChangePct)
    ensures f.momentumContinuation.Finite? <==> s.initialChangePct != 0.0
    ensures f.momentumContinuation.Finite? ==>
              f.momentumContinuation.value * s.initialChangePct == s.cumulativeChangePct
    ensures f.continuedDirection <==> s.initialChangePct * s.cumulativeChangePct > 0.0
  {
    FeatureRow(
      s,
      s.currentDate - s.dateDetected,
      InitialMoveDirection(s.initialChangePct),
      Abs(s.initialChangePct),
      Divide(s.cumulativeChangePct, s.initialChangePct),
      ContinuedDirection(s.initialChangePct, s.cumulativeChangePct))
  }

  /** The dataset: one feature row per snapshot, in log order. */
  function MlReadyDataset(log: seq<Snapshot>): (rows: seq<FeatureRow>)
    ensures |rows| == |log|
    ensures forall i :: 0 <= i < |log| ==> rows[i] == FeaturesOf(log[i])
  {
    seq(|log|, i requires 0 <= i < |log| => FeaturesOf(log[i]))
  }
}

=== FILE: tracker.dfy ===
/**
 * The tracker object (`SP500MomentumTracker`): its three stores and the
 * daily run that threads a batch of detections through them.
 *
 * The stores are the three tables in the data directory: the tracking
 * ledger, the historical store and the snapshot log. Each is a field holding
 * its rows in file order; an absent file is an empty sequence.
 */
module MomentumTracker {
  import opened Events
  import opened Detector
  import opened Updater
  import opened Archiver

  /** The ledger after one full run: detect, insert, update, archive. */
  function DailyLedger(ledger: seq<Event>, movers: seq<Event>, prices: map<string, Price>, today: Date): seq<Event> {
    WithStatus(AdvanceAll(Insert(ledger, movers), prices, today), Active)
  }

  /**
   * The run invariant: whatever the movers, if the ledger's rows were
   * well-formed before the run, every row left in the ledger after it is
   * active with fewer than ten updates.
   */
  lemma DailyRunSettles(ledger: seq<Event>, tickers: seq<string>, histories: map<string, seq<Price>>,
                        threshold: real, prices: map<string, Price>, today: Date)
    requires forall e <- ledger :: WellFormed(e)
    ensures forall e <- DailyLedger(ledger, Movers(tickers, histories, threshold, today), prices, today) :: Settled(e)
  {
    var movers := Movers(tickers, histories, threshold, today);
    MoversSound(tickers, histories, threshold, today);
    var inserted := Insert(ledger, movers);
    assert forall e <- inserted :: WellFormed(e) by {
      forall e <- inserted ensures WellFormed(e) {
        assert e in ledger || e in movers;
      }
    }
    AdvanceAllKeepsWellFormed(inserted, prices, today);
  }

  /** A ledger row of a completed event, as the historical store holds it. */
  predicate IsArchived(e: Event) {
    e.status == Completed && e.daysTracked == WindowLength
  }

  class Tracker {
    /** tracking_list.csv */
    var ledger: seq<Event>
    /** historical_tracking.csv */
    var history: seq<Event>
    /** daily_snapshots.csv */
    var snapshotLog: seq<Snapshot>

    /** The invariant the tracker's own writes keep on its three stores. */
    ghost predicate Valid()
      reads this
    {
      && (forall e <- ledger :: WellFormed(e))
      && (forall e <- history :: IsArchived(e))
      && (forall s <- snapshotLog :: IsWithinWindow(s))
    }

    /** A tracker over a data directory whose stores hold the given rows. */
    constructor (trackingRows: seq<Event>, historicalRows: seq<Event>, snapshotRows: seq<Snapshot>)
      ensures ledger == trackingRows && history == historicalRows && snapshotLog == snapshotRows
    {
      ledger := trackingRows;
      history := historicalRows;
      snapshotLog := snapshotRows;
    }

    /** `update_tracking_list`: append the new movers to the ledger. */
    method UpdateTrackingList(newMovers: seq<Event>) returns (tracking: seq<Event>)
      modifies this
      ensures ledger == Insert(old(ledger), newMovers) && tracking == ledger
      ensures history == old(history) && snapshotLog == old(snapshotLog)
      ensures old(Valid()) && (forall e <- newMovers :: WellFormed(e)) ==> Valid()
    {
      if newMovers != [] {
        ledger := Insert(ledger, newMovers);
        assert forall e <- ledger :: e in old(ledger) || e in newMovers;
      }
      tracking := ledger;
    }

    /** `track_existing_stocks`: advance every due row in place and log its snapshot. */
    method TrackExistingStocks(prices: map<string, Price>, today: Date) returns (dailyUpdates: seq<Snapshot>)
      modifies this
      ensures ledger == AdvanceAll(old(ledger), prices, today)
      ensures dailyUpdates == SnapshotsOf(old(ledger), prices, today)
      ensures snapshotLog == old(snapshotLog) + dailyUpdates
      ensures history == old(history)
      ensures old(Valid()) ==> Valid()
    {
      if !HasActive(ledger) {
        NoActiveNoChange(ledger, prices, today);
        return [];
      }
      var table := ledger;
      var rows := new Event[|table|](i requires 0 <= i < |table| => table[i]);
      assert rows[..] == table;
      dailyUpdates := AdvanceInPlace(rows, prices, today);
      ledger := rows[..];
      snapshotLog := snapshotLog + dailyUpdates;
      if old(Valid()) {
        AdvanceAllKeepsWellFormed(table, prices, today);
        SnapshotsWellFormed(table, prices, today);
      }
    }

    /** `archive_completed_stocks`: move the completed rows from the ledger to the history. */
    method ArchiveCompletedStocks()
      modifies this
      ensures history == old(history) + WithStatus(old(ledger), Completed)
      ensures ledger == WithStatus(old(ledger), Active)
      ensures snapshotLog == old(snapshotLog)
      ensures WithStatus(old(ledger), Completed) == [] ==> ledger == old(ledger) && history == old(history)
      ensures old(Valid()) ==> Valid()
    {
      var completed := WithStatus(ledger, Completed);
      if completed == [] {
        NothingCompletedNothingMoves(ledger);
        return;
      }
      history := history + completed;
      ledger := WithStatus(ledger, Active);
    }

    /** `run_daily_update`: scan, insert, update and archive, in that order. */
    method RunDailyUpdate(tickers: seq<string>, histories: map<string, seq<Price>>, threshold: real,
                          prices: map<string, Price>, today: Date)
      returns (newMovers: seq<Event>, dailyUpdates: seq<Snapshot>)
      modifies this
      ensures newMovers == Movers(tickers, histories, threshold, today)
      ensures dailyUpdates == SnapshotsOf(Insert(old(ledger), newMovers), prices, today)
      ensures ledger == DailyLedger(old(ledger), newMovers, prices, today)
      ensures history == old(history) + WithStatus(AdvanceAll(Insert(old(ledger), newMovers), prices, today), Completed)
      ensures snapshotLog == old(snapshotLog) + dailyUpdates
      ensures old(Valid()) ==> Valid() && forall e <- ledger :: Settled(e)
    {
      newMovers := GetDailyMovers(tickers, histories, threshold, today);
      MoversSound(tickers, histories, threshold, today);
      var _ := UpdateTrackingList(newMovers);
      dailyUpdates := TrackExistingStocks(prices, today);
      ArchiveCompletedStocks();
      if old(Valid()) {
        DailyRunSettles(old(ledger), tickers, histories, threshold, prices, today);
      }
    }
  }
}

=== FILE: updater.dfy ===
/**
 * The tracking ledger's insertion (`update_tracking_list`) and the daily
 * updater (`track_existing_stocks`).
 *
 * Current prices are an input: `prices` maps a ticker to its latest close; a
 * ticker missing from the map is one the price source returned nothing for.
 */
module Updater {
  import opened Wrappers
  import opened Events

  /** The ledger after the new movers are appended, with no de-duplication. */
  function Insert(ledger: seq<Event>, movers: seq<Event>): (r: seq<Event>)
    ensures |r| == |ledger| + |movers|
    ensures r[..|ledger|] == ledger && r[|ledger|..] == movers
    ensures multiset(r) == multiset(ledger) + multiset(movers)
    ensures movers == [] ==> r == ledger
  {
    ledger + movers
  }

  /** A row the daily update advances: active, with a price available today. */
  predicate IsDue(row: Event, prices: map<string, Price>) {
    row.status == Active && row.ticker in prices
  }

  /** A row after one observation at price `p` on `today`. */
  function Advance(row: Event, p: Price, today: Date): (r: Event)
    ensures r.daysTracked == row.daysTracked + 1
    ensures r.status == if r.daysTracked >= WindowLength then Completed else row.status
    ensures r.currentPrice == Some(p) && r.lastUpdated == Some(today)
    ensures r.totalChangePct.Some?
    ensures Abs(r.totalChangePct.value - PctChange(row.detectionPrice, p)) <= 0.005
    ensures (r.totalChangePct.value * 100.0).Floor as real == r.totalChangePct.value * 100.0
    ensures r.ticker == row.ticker && r.dateDetected == row.dateDetected
    ensures r.detectionPrice == row.detectionPrice && r.changePct == row.changePct
  {
    var days := row.daysTracked + 1;
    var change := PctChange(row.detectionPrice, p);
    row.(daysTracked := days,
         currentPrice := Some(p),
         totalChangePct := Some(Round2(change)),
         lastUpdated := Some(today),
         status := if days >= WindowLength then Completed else row.status)
  }

  /** A row after the daily update: advanced when due, unchanged otherwise. */
  function Step(row: Event, prices: map<string, Price>, today: Date): Event {
    if IsDue(row, prices) then Advance(row, prices[row.ticker], today) else row
  }

  /** The ledger after the daily update, row by row. */
  function AdvanceAll(rows: seq<Event>, prices: map<string, Price>, today: Date): seq<Event> {
    seq(|rows|, i requires 0 <= i < |rows| => Step(rows[i], prices, today))
  }

  /** The snapshot recorded when `row` is observed at price `p` on `today`. */
  function SnapshotOf(row: Event, p: Price, today: Date): (s: Snapshot)
    ensures var after := Advance(row, p, today);
            && s.ticker == after.ticker && s.dateDetected == after.dateDetected
            && s.trackingDay == after.daysTracked && s.status == after.status
            && Some(s.currentDate) == after.lastUpdated
            && Some(s.currentPrice) == after.currentPrice
            && Some(s.cumulativeChangePct) == after.totalChangePct
            && s.detectionPrice == after.detectionPrice
            && s.initialChangePct == after.changePct
  {
    var days := row.daysTracked + 1;
    var change := PctChange(row.detectionPrice, p);
    Snapshot(row.ticker, row.dateDetected, days, today, row.detectionPrice, p,
             row.changePct, Round2(change), Advance(row, p, today).status)
  }

  /** The snapshots of one daily update, one per due row, in ledger order. */
  function SnapshotsOf(rows: seq<Event>, prices: map<string, Price>, today: Date): seq<Snapshot>
    decreases |rows|
  {
    if rows == [] then []
    else
      var row := rows[|rows| - 1];
      SnapshotsOf(rows[..|rows| - 1], prices, today)
      + if IsDue(row, prices) then [SnapshotOf(row, prices[row.ticker], today)] else []
  }

  /** The number of due rows. */
  function CountDue(rows: seq<Event>, prices: map<string, Price>): nat
    decreases |rows|
  {
    if rows == [] then 0
    else CountDue(rows[..|rows| - 1], prices) + if IsDue(rows[|rows| - 1], prices) then 1 else 0
  }

  predicate HasActive(rows: seq<Event>) {
    exists e <- rows :: e.status == Active
  }

  /**
   * The update loop of `track_existing_stocks`: each due row of the table is
   * rewritten in place and its snapshot appended to the day's updates.
   */
  method AdvanceInPlace(rows: array<Event>, prices: map<string, Price>, today: Date)
    returns (updates: seq<Snapshot>)
    modifies rows
    ensures rows[..] == AdvanceAll(old(rows[..]), prices, today)
    ensures updates == SnapshotsOf(old(rows[..]), prices, today)
  {
    ghost var before := rows[..];
    updates := [];
    var i := 0;
    while i < rows.Length
      invariant 0 <= i <= rows.Length
      invariant forall k :: 0 <= k < i ==> rows[k] == Step(before[k], prices, today)
      invariant forall k :: i <= k < rows.Length ==> rows[k] == before[k]
      invariant updates == SnapshotsOf(before[..i], prices, today)
    {
      assert before[..i + 1][..i] == before[..i];
      var row := rows[i];
      if row.status == Active && row.ticker in prices {
        var p := prices[row.ticker];
        updates := updates + [SnapshotOf(row, p, today)];
        rows[i] := Advance(row, p, today);
      }
      i := i + 1;
    }
    assert before[..i] == before;
  }

  /** Updating two stretches of the ledger records their snapshots one after the other. */
  lemma {:induction false} SnapshotsAppend(a: seq<Event>, b: seq<Event>, prices: map<string, Price>, today: Date)
    ensures SnapshotsOf(a + b, prices, today) == SnapshotsOf(a, prices, today) + SnapshotsOf(b, prices, today)
    decreases |b|
  {
    if b == [] {
      assert a + b == a;
    } else {
      var b' := b[..|b| - 1];
      assert (a + b)[..|a + b| - 1] == a + b';
      SnapshotsAppend(a, b', prices, today);
    }
  }

  /** Exactly one snapshot per due row. */
  lemma {:induction false} SnapshotsCount(rows: seq<Event>, prices: map<string, Price>, today: Date)
    ensures |SnapshotsOf(rows, prices, today)| == CountDue(rows, prices)
    decreases |rows|
  {
    if rows != [] {
      SnapshotsCount(rows[..|rows| - 1], prices, today);
    }
  }

  /** `s` is the snapshot of row `i` of `rows`, which is due, and matches that row after the update. */
  predicate RecordsRow(s: Snapshot, rows: seq<Event>, i: int, prices: map<string, Price>, today: Date) {
    && 0 <= i < |rows|
    && IsDue(rows[i], prices)
    && s == SnapshotOf(rows[i], prices[rows[i].ticker], today)
    && s.trackingDay == Step(rows[i], prices, today).daysTracked
    && s.status == Step(rows[i], prices, today).status
  }

  /** Each snapshot is the observation of a due row, and records that row's state after the update. */
  lemma {:induction false} SnapshotsRecordUpdatedRows(rows: seq<Event>, prices: map<string, Price>, today: Date)
    ensures forall s <- SnapshotsOf(rows, prices, today) :: exists i :: RecordsRow(s, rows, i, prices, today)
    decreases |rows|
  {
    if rows != [] {
      var init := rows[..|rows| - 1];
      SnapshotsRecordUpdatedRows(init, prices, today);
      forall s <- SnapshotsOf(rows, prices, today)
        ensures exists i :: RecordsRow(s, rows, i, prices, today)
      {
        if s in SnapshotsOf(init, prices, today) {
          var i :| RecordsRow(s, init, i, prices, today);
          assert RecordsRow(s, rows, i, prices, today);
        } else {
          assert RecordsRow(s, rows, |rows| - 1, prices, today);
        }
      }
    }
  }

  /**
   * The daily update row by row: a due row is advanced by one, its detection
   * price and initial change kept, and completed exactly when its count
   * reaches the window; every other row is left exactly as it was.
   */
  lemma AdvanceAllRowwise(rows: seq<Event>, prices: map<string, Price>, today: Date)
    ensures |AdvanceAll(rows, prices, today)| == |rows|
    ensures forall i :: 0 <= i < |rows| && !IsDue(rows[i], prices) ==> AdvanceAll(rows, prices, today)[i] == rows[i]
    ensures forall i :: 0 <= i < |rows| && IsDue(rows[i], prices) ==>
              var r := AdvanceAll(rows, prices, today)[i];
              && r.daysTracked == rows[i].daysTracked + 1
              && r.ticker == rows[i].ticker && r.dateDetected == rows[i].dateDetected
              && r.detectionPrice == rows[i].detectionPrice && r.changePct == rows[i].changePct
              && r.currentPrice == Some(prices[rows[i].ticker]) && r.lastUpdated == Some(today)
              && r.totalChangePct == Some(Round2(PctChange(rows[i].detectionPrice, prices[rows[i].ticker])))
              && (r.status == Completed <==> r.daysTracked >= WindowLength)
  {
  }

  /** With no active row, the daily update changes nothing and records nothing. */
  lemma {:induction false} NoActiveNoChange(rows: seq<Event>, prices: map<string, Price>, today: Date)
    requires !HasActive(rows)
    ensures AdvanceAll(rows, prices, today) == rows
    ensures SnapshotsOf(rows, prices, today) == []
    decreases |rows|
  {
    if rows != [] {
      NoActiveNoChange(rows[..|rows| - 1], prices, today);
    }
  }

  /**
   * The daily update keeps every row well-formed: a row's count grows by
   * one or stays, never passes the window, and a completed row is left as is.
   */
  lemma StepKeepsWellFormed(row: Event, prices: map<string, Price>, today: Date)
    requires WellFormed(row)
    ensures WellFormed(Step(row, prices, today))
    ensures Step(row, prices, today).daysTracked == row.daysTracked + (if IsDue(row, prices) then 1 else 0)
    ensures row.status == Completed ==> Step(row, prices, today) == row
  {
  }

  lemma AdvanceAllKeepsWellFormed(rows: seq<Event>, prices: map<string, Price>, today: Date)
    requires forall e <- rows :: WellFormed(e)
    ensures forall e <- AdvanceAll(rows, prices, today) :: WellFormed(e)
  {
    forall e <- AdvanceAll(rows, prices, today) ensures WellFormed(e) {
      var i :| 0 <= i < |rows| && AdvanceAll(rows, prices, today)[i] == e;
      StepKeepsWellFormed(rows[i], prices, today);
    }
  }

  /** The snapshot of a well-formed active row is numbered 1 to 10 and completed exactly on day 10. */
  lemma SnapshotOfWellFormed(row: Event, p: Price, today: Date)
    requires WellFormed(row) && row.status == Active
    ensures IsWithinWindow(SnapshotOf(row, p, today))
  {
  }

  lemma SnapshotsWellFormed(rows: seq<Event>, prices: map<string, Price>, today: Date)
    requires forall e <- rows :: WellFormed(e)
    ensures forall s <- SnapshotsOf(rows, prices, today) :: IsWithinWindow(s)
  {
    SnapshotsRecordUpdatedRows(rows, prices, today);
    forall s <- SnapshotsOf(rows, prices, today)
      ensures IsWithinWindow(s)
    {
      var i :| RecordsRow(s, rows, i, prices, today);
      SnapshotOfWellFormed(rows[i], prices[rows[i].ticker], today);
    }
  }

  /** What one day's run sees: the current prices and the date. */
  datatype DailyFeed = DailyFeed(prices: map<string, Price>, today: Date)

  /** A row after one daily update per feed of `feeds`, each run with its own prices. */
  function Observed(row: Event, feeds: seq<DailyFeed>): Event
    decreases |feeds|
  {
    if feeds == [] then row
    else
      var last := feeds[|feeds| - 1];
      Step(Observed(row, feeds[..|feeds| - 1]), last.prices, last.today)
  }

  function Min(a: nat, b: nat): nat {
    if a < b then a else b
  }

  /**
   * A fresh event that has a price on every run is updated once a run until
   * its tenth update, which completes it; later runs leave it as it is. Its
   * cumulative change is taken at the price of the last run that updated it.
   */
  lemma {:induction false} WindowCloses(row: Event, feeds: seq<DailyFeed>)
    requires row.status == Active && row.daysTracked == 0
    requires forall k :: 0 <= k < |feeds| ==> row.ticker in feeds[k].prices
    ensures var r := Observed(row, feeds);
            && r.daysTracked == Min(|feeds|, WindowLength)
            && (r.status == Completed <==> |feeds| >= WindowLength)
            && r.ticker == row.ticker
            && r.detectionPrice == row.detectionPrice && r.changePct == row.changePct
            && (0 < |feeds| <= WindowLength ==>
                  var p := feeds[|feeds| - 1].prices[row.ticker];
                  r.currentPrice == Some(p)
                  && r.totalChangePct == Some(Round2(PctChange(row.detectionPrice, p))))
    decreases |feeds|
  {
    if feeds != [] {
      WindowCloses(row, feeds[..|feeds| - 1]);
    }
  }

  /** Once its window has closed, later runs leave the event exactly as its tenth update left it. */
  lemma {:induction false} WindowStaysClosed(row: Event, feeds: seq<DailyFeed>)
    requires row.status == Active && row.daysTracked == 0
    requires forall k :: 0 <= k < |feeds| ==> row.ticker in feeds[k].prices
    requires |feeds| >= WindowLength
    ensures Observed(row, feeds) == Observed(row, feeds[..WindowLength])
    decreases |feeds|
  {
    if |feeds| == WindowLength {
      assert feeds[..WindowLength] == feeds;
    } else {
      var init := feeds[..|feeds| - 1];
      WindowStaysClosed(row, init);
      assert init[..WindowLength] == feeds[..WindowLength];
      WindowCloses(row, init);
    }
  }

  /**
   * An event detected at 100 and observed at 110 on every run: after nine
   * updates it is active on day 9 at +10%, the tenth completes it.
   */
  lemma TenDayWindowExample(row: Event, feeds: seq<DailyFeed>)
    requires row.status == Active && row.daysTracked == 0 && row.detectionPrice == 100.0
    requires |feeds| == WindowLength
    requires forall k :: 0 <= k < |feeds| ==> feeds[k].prices == map[row.ticker := 110.0]
    ensures var r9 := Observed(row, feeds[..9]);
            r9.daysTracked == 9 && r9.status == Active && r9.totalChangePct == Some(10.0)
    ensures Observed(row, feeds).status == Completed
  {
    WindowCloses(row, feeds[..9]);
    WindowCloses(row, feeds);
    assert PctChange(100.0, 110.0) == 10.0;
    assert Round2(10.0) == 10.0;
  }
}

=== FILE: wrappers.dfy ===
/** Optional values: an empty CSV cell, or a price the market-data source did not return. */
module Wrappers {
  datatype Option<+T> = None | Some(value: T)
}
